=== FILE: README.md ===
# shadow: a Dafny model of the snapshot name and string logic

`shadow` keeps point-in-time snapshots of a btrfs root filesystem together with
copies of the kernel and initrd images in the boot directory. Its `Shadow`
class runs `btrfs`, `mount`, `find` and `umount`, and decides from strings what
to run on which names:

- which kernel-directory files `take_snapshot` copies to `<file>.<name>`;
- which files `remove_snapshot` and `clear_snapshots` delete;
- which files `activate_snapshot` copies back to their untagged names;
- how it reads the subvolume id out of `btrfs subvolume list`;
- how it reads the root device and the root filesystem type out of `mount`;
- the default snapshot name `%Y%m%d%H%M`.

This project models that logic as pure Dafny functions over immutable strings
and sets, and proves properties of them.

- A directory is the `set<string>` of its file names.
- The snapshot registry is the `set<string>` of names in the snapshot directory.
- A `shutil.copy` is a `Copy(src, dst)` value.
- Substring tests (`str.find(t) > -1`, `t in s`) are `Text.Contains`.

Modules, leaves first:

- `outcomes.dfy` (`Outcomes`): `Option`, `Result`, and the two exceptions the model keeps: the unbound `root_fs` and the missing id field.
- `text.dfy` (`Text`): Python's `in`/`find`, `endswith`, `replace`, `split(sep)` and whitespace `split()`, with their round trips.
- `timestamps.dfy` (`Timestamps`): `%Y%m%d%H%M` formatting of a clock reading, and parsing back.
- `tool_output.dfy` (`ToolOutput`): the subvolume-id lookup, the root-device extraction and the btrfs check.
- `kernels.dfy` (`Kernels`): snapshotting, removing and activating kernel artifacts.
- `shadow.dfy` (`Shadow`): the facade as transitions on `State(kernelFiles, registry)`. The outcomes of external commands are parameters: the text `mount` and `btrfs subvolume list` print, and whether a btrfs snapshot or delete succeeded.

Two behaviours of the code are easy to misread, and the model states them as the code has them:

- **Removal matches suffixes, not substrings.** The kernel step of removal is gated on some file name containing the snapshot name, but the deletion itself is `find <dir> -name "*<name>"` (`shadow/__init__.py:105`), which deletes names ENDING with the name. So removing a snapshot named `26` also deletes the live `vmlinuz26` (`Kernels.RemovalMatchesBareSuffix`).
- **A failed lookup skips the kernel step.** For a registered snapshot, activation returns before the kernel copies when the subvolume lookup finds nothing (`shadow/__init__.py:149-151`), and a one-field matching line raises before them (`shadow/__init__.py:66`). When the name is not registered at all, the kernel copies still run (`shadow/__init__.py:155-164`).

## Model

| member | source | states |
|---|---|---|
| Text.ReplaceStripsTrailing | shadow/__init__.py:164 | Python's left-to-right replace-all, deleting a pattern whose only occurrence is at the end, gives back the string before it |
| Text.StripDotSuffix | shadow/__init__.py:164 | `(k + "." + n).replace("." + n, "")` is `k` whenever `n` has no dot and `k` does not contain `n` |
| Text.ReplaceDeleteFixpoint | shadow/__init__.py:164 | deleting `"." + n` leaves a name unchanged exactly when the name does not contain `"." + n`, so that is exactly when an activation copy would target its own source |
| Text.ReplaceDeleteLength | shadow/__init__.py:164 | deleting a pattern never lengthens a name, and shortens it exactly when the pattern occurs |
| Text.ReplaceAbsent | shadow/__init__.py:164 | replacing a pattern that does not occur changes nothing |
| Text.ReplaceFirst | shadow/__init__.py:164 | `replace` scans left to right: the text before the first occurrence is kept, that occurrence becomes the replacement, and the scan resumes right after it |
| Text.SplitOn | shadow/__init__.py:63 | `split('\n')` yields at least one piece, no piece holds the separator, and joining the pieces gives back the text |
| Text.SplitJoin | shadow/__init__.py:51 | splitting a newline-join of newline-free lines gives back exactly those lines |
| Text.SplitHead | shadow/__init__.py:127 | `split('[')[0]` is a prefix of the device field, cut right before its first `[` when there is one |
| Text.Words | shadow/__init__.py:66 | whitespace `split()` yields only non-empty words without whitespace |
| Text.WordsEmpty | shadow/__init__.py:124 | `split()` yields no word exactly when the line is all whitespace |
| Text.WordsOfJoin | shadow/__init__.py:66 | `split()` of words joined by single spaces gives back those words |
| Timestamps.Format | shadow/__init__.py:76 | `%Y%m%d%H%M` of a valid clock reading is twelve ASCII digits and holds no `.` |
| Timestamps.DigitsRoundTrip | shadow/__init__.py:76 | a zero-padded decimal field reads back as the number written |
| Timestamps.ParseFormat | shadow/__init__.py:74-76 | the timestamp name parses back to the clock reading truncated to the minute |
| Timestamps.SameNameIffSameMinute | shadow/__init__.py:74-76 | two readings give the same default name exactly when they fall in the same minute |
| ToolOutput.FirstMatch | shadow/__init__.py:64-67 | the loop that stops at the first line containing a pattern finds the least such line, or none when no line contains it |
| ToolOutput.LastMatch | shadow/__init__.py:52-54 | the loop that never breaks keeps the greatest line containing the pattern, or none |
| ToolOutput.IdField | shadow/__init__.py:66 | `split()[1]` raises IndexError exactly when the line has fewer than two fields, and otherwise gives a non-empty field without whitespace |
| ToolOutput.IdFieldOfColumns | shadow/__init__.py:66 | on a line of space-separated columns `split()[1]` is the second column, and a one-column line raises IndexError |
| ToolOutput.FindVolId | shadow/__init__.py:62-67 | the id is the second field of the FIRST listing line containing the name; `None` exactly when no line contains it; a matching line with a single field raises IndexError |
| ToolOutput.VolIdIgnoresLaterLines | shadow/__init__.py:62-67 | once a line matches, later lines never change the lookup, so the earlier of two matching lines wins |
| ToolOutput.StripLabel | shadow/__init__.py:125-127 | the label strip leaves no `[`, is a prefix of the field, and cuts exactly at the first `[` |
| ToolOutput.StripLabelIdempotent | shadow/__init__.py:125-127 | a device without `[` is left as it is, so stripping a stripped device changes nothing |
| ToolOutput.RootLineHasFields | shadow/__init__.py:124 | a line holding " / " always has a first field, so `split()[0]` cannot fail |
| ToolOutput.RootDevice | shadow/__init__.py:115-127 | the root device is the first field of the FIRST " / " line, cut before its first `[`; there is none exactly when no line holds " / " |
| ToolOutput.RootIsBtrfs | shadow/__init__.py:51-60 | the check reads the LAST " / " line and is true exactly when that line contains "btrfs"; with no such line the error is UnboundLocalError (`root_fs` is unbound) |
| ToolOutput.BtrfsCheckIgnoresEarlierLines | shadow/__init__.py:52-55 | lines before the last root line never change the btrfs check |
| ToolOutput.RootDeviceIgnoresLaterLines | shadow/__init__.py:117-120 | lines after the first root line never change the root device |
| Kernels.MentionsAny | shadow/__init__.py:181-185 | the inner loop sets `snap_exists` exactly when some registered snapshot name occurs in the file name |
| Kernels.KernelSnapshot | shadow/__init__.py:179-191 | after the snapshot step every old name is still there, each selected file has its `k.<name>` copy, and no other name appears |
| Kernels.SnapKernels | shadow/__init__.py:179-191 | `k` is copied to `k.<name>` exactly when it mentions kernel/vmlinuz/initrd, contains no registered snapshot name and does not contain `name`; nothing else is copied |
| Kernels.SnapshotIdempotent | shadow/tests.py:33-39 | running the kernel snapshot twice with the same name and registry leaves the same set of names as running it once |
| Kernels.SelectedIgnoresOwnName | shadow/__init__.py:182-189 | adding the snapshot's own name to the registry changes no file's selection |
| Kernels.KernelRemoval | shadow/__init__.py:98-106 | removal deletes exactly the names ENDING with the snapshot name; a name that only contains it survives; with no name containing it the directory is untouched |
| Kernels.RemovalMatchesBareSuffix | shadow/__init__.py:105 | removing snapshot "26" deletes the live `vmlinuz26` and `vmlinuz26.26` but keeps `initrd.img.2611`, which only contains "26" |
| Kernels.ClearKernels | shadow/__init__.py:79-85 | after clearing, a name survives exactly when it ends with none of the cached snapshot names |
| Kernels.RemovalUndoesSnapshot | shadow/__init__.py:98-106 | removing the snapshot's kernel files undoes taking them, when no file already ended with the name |
| Kernels.ActivationCopies | shadow/__init__.py:155-164 | exactly the names containing the snapshot name are copied, each to its `.name`-stripped form and never onto itself |
| Kernels.ActivateKernels | shadow/__init__.py:155-164 | after the kernel copies the directory holds the old names plus the stripped form of every name containing the snapshot name, and nothing else |
| Kernels.ActivationInvertsSnapshot | shadow/__init__.py:155-164 | for a dot-free name no file mentioned before, activation's copies are exactly the reverse of the snapshot's copies, and the set of names stays as the snapshot left it |
| Kernels.PreloadedDirectoryExample | shadow/tests.py:24-39 | the four preloaded boot files each get one timestamped copy, and a second run with the same stamp (both calls in one minute) adds nothing |
| Kernels.LaterMinuteRetags | shadow/__init__.py:173-189 | when the second run falls in a later minute its stamp is new, so the first run's copy `vmlinuz26.<stamp>` is tagged again and the directory grows |
| Shadow.SnapshotName | shadow/__init__.py:214-215 | a falsy name becomes the timestamp, which is non-empty, parses back to the clock's minute and holds no dot; a truthy name is used verbatim |
| Shadow.TakeSnapshot | shadow/__init__.py:209-223 | the name returned is the name used; the kernel copies always happen; the registry gains exactly that name only if the root is btrfs and the snapshot succeeded; with no root line the call raises UnboundLocalError after the kernel step |
| Shadow.RemoveSnapshot | shadow/__init__.py:89-106 | only the named snapshot can leave the registry, and it stays exactly when it was registered and its delete failed; kernel names ending with it are deleted and no others |
| Shadow.ClearSnapshots | shadow/__init__.py:78-87 | a registered name survives only if it was not in the cached list or its delete failed; kernel names ending with any cached name are deleted |
| Shadow.ActivateSnapshot | shadow/__init__.py:108-166 | the registry never changes and kernel names are only added; `0` makes subvolume 0 of the root device the default exactly when a root line exists, and changes no state, and without a root line reports the missing mount; an unregistered name gets only the kernel copies; a registered name found in the listing has its id made the default and then gets the kernel copies; a registered name with no listing line, or with a one-field line (IndexError), ends the call before any copy, and an error is always that IndexError |
| Shadow.RemoveUndoesTake | shadow/__init__.py:209-223 | removing a freshly taken, previously unregistered snapshot restores both the kernel directory and the registry |
| Shadow.TakeTwiceSameMinute | shadow/__init__.py:209-223 | two default-named snapshots in one minute leave the kernel directory as one does |
| Shadow.ActivateAfterTake | shadow/__init__.py:145-164 | activating a just-taken timestamped snapshot leaves the state as the take left it; whenever it reaches the kernel copies they are exactly the reverse of the snapshot's copies; when the take did not register the subvolume, it reports the name unregistered |
| Shadow.ClearEmptiesRegistry | shadow/__init__.py:78-87 | clearing with an up-to-date cache and no failed delete empties the registry and leaves no name tagged by a former snapshot |

## Left out

- External commands are not executed. `mount` and `btrfs subvolume list` appear through the text they print; `btrfs subvolume snapshot` and `btrfs subvolume delete` through a success flag; `find -delete` through its effect on the kernel directory (`Kernels.DeleteEndingWith`). `btrfs subvolume set-default` is assumed to succeed: `NamedSet` and `DefaultSet` record that it was issued, not that it worked. The `mount` and `umount` of the default activation's scratch directory do not appear at all. `os.listdir`, `os.makedirs`, `shutil.copy`, `shutil.rmtree` and `tempfile.mkdtemp` become updates of abstract sets.
- File contents are not modelled, only names. The model does not say which snapshot's image ends up under the live name.
- The scratch directory of the default activation is not modelled: its mount, its unmount exit code, and its removal only when the unmount succeeds.
- `datetime.now()` is not modelled; the model formats a given clock reading.
- Logging and its process-wide configuration are left out.
- `_gather_snapshots` and `get_snapshots` are the registry itself. Listing the snapshot directory, and creating it in the constructor, is I/O.
- `find_os_version` is left out: it is dead code that uses the unimported `platform` module.
- Snapshot merging is left out because the code has none.
- The root-only btrfs tests are left out.
- `setup.py` is left out: it is packaging.
- The `snapshot_id=None` defaults of `remove_snapshot` and `activate_snapshot` are not modelled: the model always takes a name. Called without one, both raise in `os.path.join` before any effect (the `None == 0` test is false, so the default branch is not taken).
- The clock between the two `_snap_kernels()` calls of the snapshot test is not modelled: `Kernels.PreloadedDirectoryExample` and `Kernels.SnapshotIdempotent` cover a second run with the same stamp. The test's second `_snap_kernels()` reads the clock again, so its count check holds only when both calls fall in one minute; across a minute boundary the second run tags the tagged copies again (Kernels.LaterMinuteRetags).
- `find` descends into subdirectories of the kernel directory. The model has a flat directory, and it ignores that `find` also tests the kernel directory's own name.
- `os.path.exists(<snapshot_dir>/<name>)` is modelled as registry membership. This differs only for the empty name, for `.` and `..`, and for names holding `/`: such paths can exist without the name ever being listed.
- `remove_snapshot` does not refresh the cached snapshot list. `clear_snapshots` walks that cache, so the model passes the cache to `Shadow.ClearSnapshots` explicitly rather than keeping it in the state.
- Kernels.KernelRemoval and Kernels.ClearKernels require names with no glob metacharacter or shell-expanded character, via `GlobLiteral`. For other names, `find -name "*<name>"` is not a plain suffix test.
- Shadow.TakeSnapshot (for a caller-given name), Shadow.RemoveSnapshot, Shadow.ClearSnapshots, Shadow.RemoveUndoesTake and Shadow.ClearEmptiesRegistry require names that are one shell word, via `ShellWord`: no whitespace, no `;&|<>()'#~{}` and nothing `GlobLiteral` excludes. The code pastes `<snap_dir>/<name>` unquoted into `btrfs subvolume snapshot/delete` under `shell=True` (`shadow/__init__.py:81`, `:96`, `:201`), so a name such as `a b` or `x;y` makes the command act on another path (`a b` deletes `<snap_dir>/a`), which the registry clauses do not describe. Timestamp names are always one shell word.
- Kernels.ActivationCopies, Kernels.ActivateKernels and Shadow.ActivateSnapshot require `NoSelfCopy`: every name containing the snapshot name contains `"." + name`. Shadow.ActivateSnapshot requires it only on the paths that reach the kernel copies (`ReachesCopies`). Otherwise `shutil.copy` raises on a copy onto itself part-way through the directory listing, in an order the model does not fix.
- Text.Replace requires a non-empty pattern. The code only replaces `"." + name`, so the empty-pattern behaviour of Python's `replace` is not modelled.
- Timestamps.Format requires a year from 1900 to 9999, because Python 2's `strftime` raises for earlier years.

=== FILE: kernels.dfy ===
/** The kernel-directory side of a snapshot. The directory is the set of its
    file names; `shutil.copy` is a `Copy` from one name to another, and file
    contents are not modelled. */
module Kernels {
  import opened Text

  /** One `shutil.copy(src, dst)` inside the kernel directory. */
  datatype Copy = Copy(src: string, dst: string)

  /** The directory after the given copies: every target name now exists. */
  function Apply(files: set<string>, copies: set<Copy>): set<string> {
    files + set c | c in copies :: c.dst
  }

  /** The copies that undo the given ones. */
  function Inverse(copies: set<Copy>): set<Copy> {
    set c | c in copies :: Copy(c.dst, c.src)
  }

  function SetOf(names: seq<string>): set<string> {
    set s | s in names
  }

  // ---------------------------------------------------------------------
  // Snapshot: _snap_kernels

  /** The name a kernel file's copy for snapshot `name` gets: `k + "." + name`. */
  function Tagged(k: string, name: string): string {
    k + "." + name
  }

  /** The name mentions "kernel", "vmlinuz" or "initrd". */
  predicate IsKernelArtifact(k: string) {
    Contains(k, "kernel") || Contains(k, "vmlinuz") || Contains(k, "initrd")
  }

  /** The name contains some registered snapshot name (`snap_exists`). */
  predicate MentionsSnapshot(k: string, registry: set<string>) {
    exists s :: s in registry && Contains(k, s)
  }

  /** `_snap_kernels` copies `k`: no registered snapshot name occurs in it,
      it is a kernel or initrd, and it does not already carry `name`. */
  predicate Selected(k: string, registry: set<string>, name: string) {
    !MentionsSnapshot(k, registry) && IsKernelArtifact(k) && !Contains(k, name)
  }

  /** The copies `_snap_kernels` makes for the snapshot `name`. */
  function SnapshotCopies(files: set<string>, registry: set<string>, name: string): set<Copy> {
    set k | k in files && Selected(k, registry, name) :: Copy(k, Tagged(k, name))
  }

  /** The kernel directory after `_snap_kernels`: every name stays, each
      selected file gains its tagged copy, and nothing else appears. */
  function KernelSnapshot(files: set<string>, registry: set<string>, name: string): (r: set<string>)
    ensures files <= r
    ensures forall k :: k in files && Selected(k, registry, name) ==> Tagged(k, name) in r
    ensures forall x :: x in r && x !in files ==>
      exists k :: k in files && Selected(k, registry, name) && x == Tagged(k, name)
  {
    var r := Apply(files, SnapshotCopies(files, registry, name));
    assert forall k :: k in files && Selected(k, registry, name) ==> Tagged(k, name) in r by {
      forall k | k in files && Selected(k, registry, name) ensures Tagged(k, name) in r {
        assert Copy(k, Tagged(k, name)) in SnapshotCopies(files, registry, name);
      }
    }
    r
  }

  /** The inner loop of `_snap_kernels`: scans the registered snapshot names
      and stops at the first one that occurs in `k`. */
  method MentionsAny(k: string, snaps: seq<string>) returns (found: bool)
    ensures found <==> MentionsSnapshot(k, SetOf(snaps))
  {
    found := false;
    var j := 0;
    while j < |snaps|
      invariant 0 <= j <= |snaps|
      invariant !found
      invariant forall i :: 0 <= i < j ==> !Contains(k, snaps[i])
    {
      if Contains(k, snaps[j]) {
        found := true;
        assert snaps[j] in SetOf(snaps);
        return;
      }
      j := j + 1;
    }
    assert forall s :: s in SetOf(snaps) ==> exists i :: 0 <= i < |snaps| && snaps[i] == s;
  }

  /** `_snap_kernels` as the loop it is: walks the directory listing once and
      returns the copies it issues, in order. A file is copied to
      `k + "." + name` exactly when it is selected, and nothing else is copied. */
  method SnapKernels(listing: seq<string>, snaps: seq<string>, name: string) returns (copies: seq<Copy>)
    ensures forall c :: c in copies ==> c.src in listing && c.dst == Tagged(c.src, name)
    ensures forall k :: k in listing ==>
      (Copy(k, Tagged(k, name)) in copies <==> Selected(k, SetOf(snaps), name))
    ensures SetOf(listing) + (set c | c in copies :: c.dst)
      == KernelSnapshot(SetOf(listing), SetOf(snaps), name)
  {
    copies := [];
    var j := 0;
    while j < |listing|
      invariant 0 <= j <= |listing|
      invariant forall c :: c in copies ==> c.src in listing[..j] && c.dst == Tagged(c.src, name)
      invariant forall k :: k in listing[..j] ==>
        (Copy(k, Tagged(k, name)) in copies <==> Selected(k, SetOf(snaps), name))
    {
      var k := listing[j];
      var snapExists := MentionsAny(k, snaps);
      if !snapExists {
        if Contains(k, "kernel") || Contains(k, "vmlinuz") || Contains(k, "initrd") {
          if !Contains(k, name) {
            copies := copies + [Copy(k, Tagged(k, name))];
          }
        }
      }
      assert listing[..j + 1] == listing[..j] + [k];
      j := j + 1;
    }
    assert listing[..j] == listing;
    var snapshot := SnapshotCopies(SetOf(listing), SetOf(snaps), name);
    assert (set c | c in copies) == snapshot by {
      forall c | c in copies ensures c in snapshot {
        assert c.src in SetOf(listing);
      }
      forall c | c in snapshot ensures c in copies {
        var k :| k in SetOf(listing) && Selected(k, SetOf(snaps), name) && c == Copy(k, Tagged(k, name));
      }
    }
  }

  lemma TaggedContainsName(k: string, name: string)
    ensures Contains(Tagged(k, name), name)
    ensures Contains(Tagged(k, name), "." + name)
    ensures EndsWith(Tagged(k, name), name)
  {
    var t := Tagged(k, name);
    assert t[|k|..] == "." + name;
    assert OccursAt(t, "." + name, |k|);
    assert t[|k| + 1..] == name;
    assert OccursAt(t, name, |k| + 1);
  }

  /** Taking the same snapshot twice leaves the directory as one run does:
      the second run skips the tagged copies, which carry `name`, and
      re-copying an original hits a target that already exists. */
  lemma SnapshotIdempotent(files: set<string>, registry: set<string>, name: string)
    ensures KernelSnapshot(KernelSnapshot(files, registry, name), registry, name)
      == KernelSnapshot(files, registry, name)
  {
    var once := KernelSnapshot(files, registry, name);
    forall c | c in SnapshotCopies(once, registry, name)
      ensures c.dst in once
    {
      var k :| k in once && Selected(k, registry, name) && c == Copy(k, Tagged(k, name));
      if k !in files {
        var k0 :| k0 in files && Selected(k0, registry, name) && k == Tagged(k0, name);
        TaggedContainsName(k0, name);
        assert false;
      }
      assert Copy(k, Tagged(k, name)) in SnapshotCopies(files, registry, name);
    }
  }

  /** Registering the snapshot's own name does not change which files are
      selected: a name containing it is skipped anyway. */
  lemma SelectedIgnoresOwnName(k: string, registry: set<string>, name: string)
    ensures Selected(k, registry + {name}, name) == Selected(k, registry, name)
  {
    if MentionsSnapshot(k, registry + {name}) && !MentionsSnapshot(k, registry) {
      assert Contains(k, name);
    }
  }

  // ---------------------------------------------------------------------
  // Removal: find <dir> -name "*<name>" -delete

  /** The name is taken literally by `find -name "*<name>"` inside the shell's
      double quotes: no glob metacharacter and nothing the shell expands. */
  predicate GlobLiteral(name: string) {
    forall i :: 0 <= i < |name| ==> name[i] !in "*?[\\\"$`"
  }

  /** `find <dir> -name "*<name>" -delete`: every name ending with `name` goes. */
  function DeleteEndingWith(files: set<string>, name: string): set<string> {
    set f | f in files && !EndsWith(f, name)
  }

  /** The kernel step of `remove_snapshot`: when some name contains `name`,
      run the deletion. The deletion removes exactly the names ENDING with
      `name`; a name that only contains it survives, and without any name
      containing it the directory is untouched. */
  function KernelRemoval(files: set<string>, name: string): (r: set<string>)
    requires GlobLiteral(name)
    ensures forall f :: f in r <==> f in files && !EndsWith(f, name)
    ensures NoneContain(files, name) ==> r == files
  {
    if exists k :: k in files && Contains(k, name) then DeleteEndingWith(files, name)
    else
      assert forall f :: f in files && EndsWith(f, name) ==> Contains(f, name) by {
        forall f | f in files && EndsWith(f, name) ensures Contains(f, name) {
          EndsWithContains(f, name);
        }
      }
      files
  }

  predicate NoneContain(files: set<string>, name: string) {
    forall f :: f in files ==> !Contains(f, name)
  }

  /** Some cached snapshot name ends `f`. */
  predicate EndsWithSome(f: string, names: seq<string>) {
    exists s :: s in names && EndsWith(f, s)
  }

  /** The kernel step of `clear_snapshots`: the deletion runs, ungated, for
      each snapshot name in turn; a name survives when it ends with none of
      them. */
  function ClearKernels(files: set<string>, names: seq<string>): (r: set<string>)
    requires forall i :: 0 <= i < |names| ==> GlobLiteral(names[i])
    ensures forall f :: f in r <==> f in files && !EndsWithSome(f, names)
  {
    if |names| == 0 then files
    else
      var r := ClearKernels(DeleteEndingWith(files, names[0]), names[1..]);
      assert forall s :: s in names <==> s == names[0] || s in names[1..];
      r
  }

  /** Removing a snapshot's kernel files undoes taking them, provided no file
      already ended with the snapshot name. */
  lemma RemovalUndoesSnapshot(files: set<string>, registry: set<string>, name: string)
    requires GlobLiteral(name)
    requires forall f :: f in files ==> !EndsWith(f, name)
    ensures KernelRemoval(KernelSnapshot(files, registry, name), name) == files
  {
    var once := KernelSnapshot(files, registry, name);
    forall f | f in once && f !in files ensures EndsWith(f, name) {
      var k :| k in files && Selected(k, registry, name) && f == Tagged(k, name);
      TaggedContainsName(k, name);
    }
  }

  // ---------------------------------------------------------------------
  // Activation: copy each snapshot file back to its untagged name

  /** `f.replace("." + name, "")`: the name `f` is copied back to. */
  function Untagged(f: string, name: string): string {
    Replace(f, "." + name, "")
  }

  /** Every name that mentions `name` carries `"." + name`, so no activation
      copy targets its own source (`shutil.copy` refuses that). */
  predicate NoSelfCopy(files: set<string>, name: string) {
    forall f :: f in files && Contains(f, name) ==> Contains(f, "." + name)
  }

  /** The copies `activate_snapshot` makes in the kernel directory: each name
      containing `name` is copied to its untagged form. No copy targets its
      own source. */
  function ActivationCopies(files: set<string>, name: string): (r: set<Copy>)
    requires NoSelfCopy(files, name)
    ensures forall c :: c in r ==> c.src in files && Contains(c.src, name) && c.src != c.dst
    ensures forall c :: c in r ==> c.dst == Untagged(c.src, name)
    ensures forall f :: f in files && Contains(f, name) ==> Copy(f, Untagged(f, name)) in r
  {
    if exists k :: k in files && Contains(k, name) then
      var r := set f | f in files && Contains(f, name) :: Copy(f, Untagged(f, name));
      assert forall c :: c in r ==> c.src != c.dst by {
        forall c | c in r ensures c.src != c.dst {
          ReplaceDeleteFixpoint(c.src, "." + name);
        }
      }
      r
    else {}
  }

  /** The kernel directory after activation: names are only added or
      overwritten, never removed, and the names added are exactly the
      untagged forms of the names mentioning the snapshot. */
  function ActivateKernels(files: set<string>, name: string): (r: set<string>)
    requires NoSelfCopy(files, name)
    ensures r == files + set f | f in files && Contains(f, name) :: Untagged(f, name)
  {
    var copies := ActivationCopies(files, name);
    var targets := set c | c in copies :: c.dst;
    var untagged := set f | f in files && Contains(f, name) :: Untagged(f, name);
    assert targets == untagged by {
      forall x | x in targets ensures x in untagged {
        var c :| c in copies && x == c.dst;
        assert c.src in files && Contains(c.src, name);
      }
      forall x | x in untagged ensures x in targets {
        var f :| f in files && Contains(f, name) && x == Untagged(f, name);
        assert Copy(f, Untagged(f, name)) in copies;
      }
    }
    Apply(files, copies)
  }

  /** For a dot-free name that no existing file mentions, activation copies
      each snapshot file `k.<name>` back onto `k` and does nothing else: it
      is exactly the inverse of the snapshot's copies, and leaves the set of
      names as the snapshot left it. */
  lemma ActivationInvertsSnapshot(files: set<string>, registry: set<string>, name: string)
    requires '.' !in name
    requires NoneContain(files, name)
    ensures NoSelfCopy(KernelSnapshot(files, registry, name), name)
    ensures ActivationCopies(KernelSnapshot(files, registry, name), name)
      == Inverse(SnapshotCopies(files, registry, name))
    ensures ActivateKernels(KernelSnapshot(files, registry, name), name)
      == KernelSnapshot(files, registry, name)
  {
    var once := KernelSnapshot(files, registry, name);
    var snap := SnapshotCopies(files, registry, name);
    forall f | f in once && Contains(f, name)
      ensures exists k :: k in files && Selected(k, registry, name) && f == Tagged(k, name)
    {
    }
    forall f | f in once && Contains(f, name) ensures Contains(f, "." + name) {
      var k :| k in files && Selected(k, registry, name) && f == Tagged(k, name);
      TaggedContainsName(k, name);
    }
    var act := ActivationCopies(once, name);
    forall c | c in act ensures c in Inverse(snap) {
      var k :| k in files && Selected(k, registry, name) && c.src == Tagged(k, name);
      StripDotSuffix(k, name);
      assert Copy(k, Tagged(k, name)) in snap;
    }
    forall c | c in Inverse(snap) ensures c in act {
      var d :| d in snap && c == Copy(d.dst, d.src);
      var k :| k in files && Selected(k, registry, name) && d == Copy(k, Tagged(k, name));
      TaggedContainsName(k, name);
      StripDotSuffix(k, name);
      assert Copy(Tagged(k, name), Untagged(Tagged(k, name), name)) in act;
    }
  }

  /** The suffix match is not tied to the `.` tag: removing a snapshot named
      "26" also deletes the live kernel `vmlinuz26`, while a tagged copy of
      another snapshot that merely contains "26" stays. */
  lemma RemovalMatchesBareSuffix(files: set<string>)
    requires "vmlinuz26" in files && "vmlinuz26.26" in files && "initrd.img.2611" in files
    ensures "vmlinuz26" !in KernelRemoval(files, "26")
    ensures "vmlinuz26.26" !in KernelRemoval(files, "26")
    ensures "initrd.img.2611" in KernelRemoval(files, "26")
  {
    assert "vmlinuz26"[7..] == "26";
    assert "vmlinuz26.26"[10..] == "26";
    assert "initrd.img.2611"[13..] == "11";
  }

  // ---------------------------------------------------------------------
  // The directory the test suite preloads

  /** A pattern holding a character the string lacks does not occur in it. */
  lemma AbsentChar(s: string, t: string, j: int)
    requires 0 <= j < |t| && t[j] !in s
    ensures !Contains(s, t)
  {
    forall i | 0 <= i <= |s| - |t| ensures !OccursAt(s, t, i) {
      assert s[i + j] in s;
      assert s[i..i + |t|][j] == s[i + j];
    }
  }

  const PreloadedFiles: set<string> := {"kernel26.img", "vmlinuz26", "initrd.img-2.6.38", "vmlinuz.2.6.38"}
  const ExampleStamp: string := "199912311259"

  lemma PreloadedAllSelected()
    ensures forall k :: k in PreloadedFiles ==> Selected(k, {}, ExampleStamp)
  {
    assert OccursAt("kernel26.img", "kernel", 0);
    assert OccursAt("vmlinuz26", "vmlinuz", 0);
    assert OccursAt("initrd.img-2.6.38", "initrd", 0);
    assert OccursAt("vmlinuz.2.6.38", "vmlinuz", 0);
    AbsentChar("kernel26.img", ExampleStamp, 0);
    AbsentChar("vmlinuz26", ExampleStamp, 0);
    AbsentChar("initrd.img-2.6.38", ExampleStamp, 0);
    AbsentChar("vmlinuz.2.6.38", ExampleStamp, 0);
  }

  const PreloadedCopies: set<string> :=
    {"kernel26.img.199912311259", "vmlinuz26.199912311259",
     "initrd.img-2.6.38.199912311259", "vmlinuz.2.6.38.199912311259"}

  lemma PreloadedTargets()
    ensures (set k | k in PreloadedFiles :: Tagged(k, ExampleStamp)) == PreloadedCopies
  {
    var t := set k | k in PreloadedFiles :: Tagged(k, ExampleStamp);
    assert Tagged("kernel26.img", ExampleStamp) == "kernel26.img.199912311259";
    assert Tagged("vmlinuz26", ExampleStamp) == "vmlinuz26.199912311259";
    assert Tagged("initrd.img-2.6.38", ExampleStamp) == "initrd.img-2.6.38.199912311259";
    assert Tagged("vmlinuz.2.6.38", ExampleStamp) == "vmlinuz.2.6.38.199912311259";
    forall x | x in t ensures x in PreloadedCopies {
      var k :| k in PreloadedFiles && x == Tagged(k, ExampleStamp);
    }
    forall x | x in PreloadedCopies ensures x in t {
      if x == "kernel26.img.199912311259" {
        assert Tagged("kernel26.img", ExampleStamp) in t;
      } else if x == "vmlinuz26.199912311259" {
        assert Tagged("vmlinuz26", ExampleStamp) in t;
      } else if x == "initrd.img-2.6.38.199912311259" {
        assert Tagged("initrd.img-2.6.38", ExampleStamp) in t;
      } else {
        assert Tagged("vmlinuz.2.6.38", ExampleStamp) in t;
      }
    }
  }

  /** When every file is selected, the snapshot tags every file. */
  lemma AllSelectedTargets(files: set<string>, registry: set<string>, name: string)
    requires forall k :: k in files ==> Selected(k, registry, name)
    ensures (set c | c in SnapshotCopies(files, registry, name) :: c.dst) == set k | k in files :: Tagged(k, name)
  {
    var copies := SnapshotCopies(files, registry, name);
    forall k | k in files ensures Tagged(k, name) in (set c | c in copies :: c.dst) {
      assert Copy(k, Tagged(k, name)) in copies;
    }
  }

  lemma PreloadedSnapshotTargets()
    ensures (set c | c in SnapshotCopies(PreloadedFiles, {}, ExampleStamp) :: c.dst) == PreloadedCopies
  {
    PreloadedAllSelected();
    AllSelectedTargets(PreloadedFiles, {}, ExampleStamp);
    PreloadedTargets();
  }

  /** The four boot files the test suite writes, snapshotted under a
      timestamp with an empty registry: each gets exactly one tagged copy,
      and a second run adds nothing. */
  lemma PreloadedDirectoryExample()
    ensures KernelSnapshot(PreloadedFiles, {}, ExampleStamp) == PreloadedFiles + PreloadedCopies
    ensures KernelSnapshot(KernelSnapshot(PreloadedFiles, {}, ExampleStamp), {}, ExampleStamp)
      == KernelSnapshot(PreloadedFiles, {}, ExampleStamp)
  {
    PreloadedSnapshotTargets();
    SnapshotIdempotent(PreloadedFiles, {}, ExampleStamp);
  }

  /** A stamp from a later minute. */
  const LaterStamp: string := "200001010000"

  /** A kernel file lacking some character of a fresh stamp, with nothing
      registered, gets its tagged copy. */
  lemma FreshStampTags(files: set<string>, k: string, name: string, j: int)
    requires k in files && IsKernelArtifact(k)
    requires 0 <= j < |name| && name[j] !in k
    ensures Tagged(k, name) in KernelSnapshot(files, {}, name)
  {
    AbsentChar(k, name, j);
    assert Selected(k, {}, name);
  }

  /** Snapshotting a directory of one file yields at most that file and its
      tagged copy. */
  lemma SingleFileSnapshot(k: string, registry: set<string>, name: string)
    ensures KernelSnapshot({k}, registry, name) <= {k, Tagged(k, name)}
  {
  }

  /** The test's first `_snap_kernels()` run, on `vmlinuz26` alone: it gains its
      copy under the first stamp and nothing longer. */
  lemma FirstRunOfVmlinuz()
    ensures "vmlinuz26.199912311259" in KernelSnapshot({"vmlinuz26"}, {}, ExampleStamp)
    ensures "vmlinuz26.199912311259.200001010000" !in KernelSnapshot({"vmlinuz26"}, {}, ExampleStamp)
  {
    assert OccursAt("vmlinuz26", "vmlinuz", 0);
    FreshStampTags({"vmlinuz26"}, "vmlinuz26", ExampleStamp, 0);
    assert Tagged("vmlinuz26", ExampleStamp) == "vmlinuz26.199912311259";
    SingleFileSnapshot("vmlinuz26", {}, ExampleStamp);
  }

  /** A run under the later stamp tags the first stamp's copy of `vmlinuz26`
      again: the copy holds no `0`, so the later stamp does not occur in it. */
  lemma LaterRunOfCopy(files: set<string>)
    requires "vmlinuz26.199912311259" in files
    ensures "vmlinuz26.199912311259.200001010000" in KernelSnapshot(files, {}, LaterStamp)
  {
    var tagged := "vmlinuz26.199912311259";
    assert OccursAt(tagged, "vmlinuz", 0);
    FreshStampTags(files, tagged, LaterStamp, 1);
    assert Tagged(tagged, LaterStamp) == "vmlinuz26.199912311259.200001010000";
  }

  /** The duplicate check is by name: when the second run falls in another
      minute, its stamp is new, so the first run's tagged copies are tagged
      again and the directory grows. */
  lemma LaterMinuteRetags()
    ensures var once := KernelSnapshot({"vmlinuz26"}, {}, ExampleStamp);
      && "vmlinuz26.199912311259" in once
      && "vmlinuz26.199912311259.200001010000" !in once
      && "vmlinuz26.199912311259.200001010000" in KernelSnapshot(once, {}, LaterStamp)
  {
    FirstRunOfVmlinuz();
    LaterRunOfCopy(KernelSnapshot({"vmlinuz26"}, {}, ExampleStamp));
  }
}

=== FILE: outcomes.dfy ===
/** Optional values and the two Python exceptions the modelled code can raise. */
module Outcomes {

  /** Python's `None` versus a present value. */
  datatype Option<+T> = None | Some(value: T)

  /** The exceptions that escape the modelled methods of `Shadow`. */
  datatype Failure =
    | UnboundRootFs   // `root_fs` read before assignment: the mount table has no " / " line
    | FieldMissing    // `split()[1]` on a subvolume-list line with fewer than two fields

  /** Either a value or the exception that aborted the computation. */
  datatype Result<+T> = Ok(value: T) | Err(error: Failure)
}

=== FILE: shadow.dfy ===
/** The `Shadow` facade as transitions over an abstract state: the kernel
    directory's file names and the snapshot registry (the names listed in
    the snapshot directory). Outcomes of the external commands it runs are
    parameters: the text `mount` and `btrfs subvolume list` print, and
    whether `btrfs subvolume snapshot` / `delete` succeeded. */
module Shadow {
  import opened Outcomes
  import opened Text
  import opened Timestamps
  import opened Kernels
  import opened ToolOutput

  datatype State = State(kernelFiles: set<string>, registry: set<string>)

  /** What `activate_snapshot` is asked for: the literal `0` (the default
      subvolume) or a snapshot name. */
  datatype SnapshotId = Default | Named(name: string)

  /** How an activation ended. */
  datatype Activation =
    | NoRootMount                 // `0` asked, but no mount line holds " / "
    | DefaultSet(device: string)  // subvolume 0 of `device` made the default
    | VolumeNotFound              // registered, but no listing line names it
    | NamedSet(volId: string)     // subvolume `volId` made the default
    | NotRegistered               // no such snapshot: only the kernel step ran

  /** A transition's new state together with what the call returned. */
  datatype Step<T> = Step(state: State, outcome: T)

  /** Python's `not timestamp` for a string argument. */
  predicate Falsy(arg: Option<string>) {
    arg.None? || arg.value == ""
  }

  /** The name stays one shell word when pasted unquoted into a command
      line run with `shell=True`: no whitespace, no operator, quoting or
      expansion character, and nothing `GlobLiteral` excludes. Only then does
      `btrfs subvolume snapshot/delete <snap_dir>/<name>` act on that path. */
  predicate ShellWord(name: string) {
    && GlobLiteral(name)
    && forall i :: 0 <= i < |name| ==> !IsSpace(name[i]) && name[i] !in ";&|<>()'#~{}"
  }

  /** The name `take_snapshot` uses and returns: the caller's name when it is
      truthy, else the minute-resolution timestamp, which is twelve digits
      reading back as the clock's minute and holds no dot. */
  function SnapshotName(arg: Option<string>, clock: DateTime): (name: string)
    requires ValidClock(clock)
    ensures |name| > 0
    ensures !Falsy(arg) ==> name == arg.value
    ensures Falsy(arg) ==> Parse(name) == Some(ToMinute(clock)) && '.' !in name && ShellWord(name)
  {
    if Falsy(arg) then
      ParseFormat(clock);
      Format(clock)
    else arg.value
  }

  /** `take_snapshot`: copies the kernel files, then snapshots the root
      filesystem when the mount table says it is btrfs. The kernel copies
      stay even when the root check raises; the registry gains the name only
      when the btrfs snapshot command succeeded. */
  function TakeSnapshot(st: State, arg: Option<string>, clock: DateTime, mounts: string, snapshotOk: bool)
    : (r: Step<Result<string>>)
    requires ValidClock(clock)
    requires !Falsy(arg) ==> ShellWord(arg.value)
    ensures r.outcome.Err? <==> NoneMatch(Lines(mounts), RootMarker)
    ensures r.outcome.Err? ==> r.outcome.error == UnboundRootFs
    ensures r.outcome.Ok? ==> r.outcome.value == SnapshotName(arg, clock)
    ensures r.state.kernelFiles == KernelSnapshot(st.kernelFiles, st.registry, SnapshotName(arg, clock))
    ensures st.registry <= r.state.registry <= st.registry + {SnapshotName(arg, clock)}
    ensures SnapshotName(arg, clock) in r.state.registry <==>
      SnapshotName(arg, clock) in st.registry || (RootIsBtrfs(mounts) == Ok(true) && snapshotOk)
  {
    var name := SnapshotName(arg, clock);
    var files := KernelSnapshot(st.kernelFiles, st.registry, name);
    match RootIsBtrfs(mounts)
    case Err(e) => Step(State(files, st.registry), Err(e))
    case Ok(btrfs) =>
      var registry := if btrfs && snapshotOk then st.registry + {name} else st.registry;
      Step(State(files, registry), Ok(name))
  }

  /** `remove_snapshot`: deletes the subvolume when it is registered, and the
      kernel files ending with the name. */
  function RemoveSnapshot(st: State, name: string, deleteOk: bool): (r: State)
    requires ShellWord(name)
    ensures st.registry - {name} <= r.registry <= st.registry
    ensures name in r.registry <==> name in st.registry && !deleteOk
    ensures forall f :: f in r.kernelFiles <==> f in st.kernelFiles && !EndsWith(f, name)
  {
    var registry := if name in st.registry && deleteOk then st.registry - {name} else st.registry;
    State(KernelRemoval(st.kernelFiles, name), registry)
  }

  /** `clear_snapshots`: walks the cached snapshot list (the registry as last
      listed), deleting each subvolume and the kernel files ending with its
      name; `failed` are the names whose subvolume delete failed. */
  function ClearSnapshots(st: State, cache: seq<string>, failed: set<string>): (r: State)
    requires forall i :: 0 <= i < |cache| ==> ShellWord(cache[i])
    ensures forall f :: f in r.kernelFiles <==> f in st.kernelFiles && !EndsWithSome(f, cache)
    ensures forall s :: s in r.registry <==> s in st.registry && (s !in cache || s in failed)
  {
    assert forall i :: 0 <= i < |cache| ==> GlobLiteral(cache[i]) by {
      forall i | 0 <= i < |cache| ensures GlobLiteral(cache[i]) {
        assert ShellWord(cache[i]);
      }
    }
    State(ClearKernels(st.kernelFiles, cache), set s | s in st.registry && (s !in cache || s in failed))
  }

  /** A named activation reaches the kernel copies: the name is not
      registered, or the listing gives its subvolume id. A failed lookup
      returns before them. */
  predicate ReachesCopies(st: State, name: string, listing: string) {
    name !in st.registry || (FindVolId(listing, name).Ok? && FindVolId(listing, name).value.Some?)
  }

  /** `activate_snapshot`. The registry never changes and kernel names are
      only added. The default branch changes nothing else and makes
      subvolume 0 of the root device the default exactly when a root mount
      line exists. A named snapshot that is registered is looked up in the
      listing: a found id is made the default and the kernel copies run; a
      missing line or a one-field line ends the call before the copies. A
      name that is not registered still gets the kernel copies. */
  function ActivateSnapshot(st: State, id: SnapshotId, mounts: string, listing: string)
    : (r: Step<Result<Activation>>)
    requires id.Named? && ReachesCopies(st, id.name, listing) ==> NoSelfCopy(st.kernelFiles, id.name)
    ensures r.state.registry == st.registry
    ensures st.kernelFiles <= r.state.kernelFiles
    ensures id == Default ==> r.state == st && r.outcome.Ok?
    ensures id == Default ==> (r.outcome.value.DefaultSet? <==> !NoneMatch(Lines(mounts), RootMarker))
    ensures id == Default && NoneMatch(Lines(mounts), RootMarker) ==> r.outcome == Ok(NoRootMount)
    ensures r.outcome.Ok? && r.outcome.value.DefaultSet? ==>
      id == Default && RootDevice(mounts) == Some(r.outcome.value.device)
    ensures id.Named? && id.name !in st.registry ==>
      && r.outcome == Ok(NotRegistered)
      && r.state.kernelFiles == ActivateKernels(st.kernelFiles, id.name)
    ensures id.Named? && id.name in st.registry && ReachesCopies(st, id.name, listing) ==>
      && r.outcome == Ok(NamedSet(FindVolId(listing, id.name).value.value))
      && r.state.kernelFiles == ActivateKernels(st.kernelFiles, id.name)
    ensures r.outcome.Ok? && r.outcome.value.NamedSet? ==>
      id.Named? && id.name in st.registry && !NoneMatch(Lines(listing), id.name)
    ensures r.outcome.Err? <==>
      id.Named? && id.name in st.registry && FindVolId(listing, id.name).Err?
    ensures r.outcome.Err? ==> id.Named? && r.outcome == Err(FieldMissing) && FindVolId(listing, id.name) == Err(FieldMissing)
    ensures r.outcome == Ok(VolumeNotFound) <==>
      id.Named? && id.name in st.registry && NoneMatch(Lines(listing), id.name)
    ensures r.outcome.Err? || r.outcome == Ok(VolumeNotFound) ==> r.state == st
  {
    match id
    case Default =>
      (match RootDevice(mounts)
       case None => Step(st, Ok(NoRootMount))
       case Some(device) => Step(st, Ok(DefaultSet(device))))
    case Named(name) =>
      if name !in st.registry then
        Step(State(ActivateKernels(st.kernelFiles, name), st.registry), Ok(NotRegistered))
      else
        match FindVolId(listing, name)
        case Err(e) => Step(st, Err(e))
        case Ok(None) => Step(st, Ok(VolumeNotFound))
        case Ok(Some(volId)) => Step(State(ActivateKernels(st.kernelFiles, name), st.registry), Ok(NamedSet(volId)))
  }

  // ---------------------------------------------------------------------
  // Properties across operations

  /** Removing a freshly taken snapshot restores the state, when the name was
      not registered before and no kernel file already ended with it. */
  lemma RemoveUndoesTake(st: State, arg: Option<string>, clock: DateTime, mounts: string, snapshotOk: bool)
    requires ValidClock(clock)
    requires !Falsy(arg) ==> ShellWord(arg.value)
    requires SnapshotName(arg, clock) !in st.registry
    requires forall f :: f in st.kernelFiles ==> !EndsWith(f, SnapshotName(arg, clock))
    ensures RemoveSnapshot(TakeSnapshot(st, arg, clock, mounts, snapshotOk).state, SnapshotName(arg, clock), true) == st
  {
    RemovalUndoesSnapshot(st.kernelFiles, st.registry, SnapshotName(arg, clock));
  }

  /** Two default-named snapshots in the same minute leave the kernel
      directory as one does, whether or not the first registered its
      subvolume. */
  lemma TakeTwiceSameMinute(st: State, a: DateTime, b: DateTime, mounts: string, ok1: bool, ok2: bool)
    requires ValidClock(a) && ValidClock(b) && ToMinute(a) == ToMinute(b)
    ensures
      var once := TakeSnapshot(st, None, a, mounts, ok1).state;
      TakeSnapshot(once, None, b, mounts, ok2).state.kernelFiles == once.kernelFiles
  {
    SameNameIffSameMinute(a, b);
    var name := Format(a);
    var once := TakeSnapshot(st, None, a, mounts, ok1).state;
    SnapshotIdempotent(st.kernelFiles, st.registry, name);
    if once.registry != st.registry {
      assert once.registry == st.registry + {name};
      forall k ensures Selected(k, once.registry, name) == Selected(k, st.registry, name) {
        SelectedIgnoresOwnName(k, st.registry, name);
      }
      assert SnapshotCopies(once.kernelFiles, once.registry, name)
        == SnapshotCopies(once.kernelFiles, st.registry, name);
    }
  }

  /** Activating a just-taken default-named snapshot, provided no kernel
      file mentioned the timestamp before: whenever the activation reaches
      its kernel copies they are exactly the reverse of the snapshot's copies,
      so it adds no name; every other path changes nothing either. When the
      take did not register the subvolume, the activation reports the name
      unregistered and still copies the kernels back. */
  lemma ActivateAfterTake(st: State, clock: DateTime, mounts: string, snapshotOk: bool,
                          mounts2: string, listing: string)
    requires ValidClock(clock)
    requires NoneContain(st.kernelFiles, Format(clock))
    ensures NoSelfCopy(TakeSnapshot(st, None, clock, mounts, snapshotOk).state.kernelFiles, Format(clock))
    ensures
      var stamp := Format(clock);
      var taken := TakeSnapshot(st, None, clock, mounts, snapshotOk).state;
      var act := ActivateSnapshot(taken, Named(stamp), mounts2, listing);
      && (ReachesCopies(taken, stamp, listing) ==>
            act.state.kernelFiles
              == Apply(taken.kernelFiles, Inverse(SnapshotCopies(st.kernelFiles, st.registry, stamp))))
      && act.state == taken
      && (stamp !in st.registry && !(RootIsBtrfs(mounts) == Ok(true) && snapshotOk) ==>
            act.outcome == Ok(NotRegistered))
  {
    var stamp := Format(clock);
    var taken := TakeSnapshot(st, None, clock, mounts, snapshotOk).state;
    assert SnapshotName(None, clock) == stamp;
    assert taken.kernelFiles == KernelSnapshot(st.kernelFiles, st.registry, stamp);
    ActivationInvertsSnapshot(st.kernelFiles, st.registry, stamp);
    assert ActivateKernels(taken.kernelFiles, stamp) == taken.kernelFiles;
    var act := ActivateSnapshot(taken, Named(stamp), mounts2, listing);
    if ReachesCopies(taken, stamp, listing) {
      assert act.state.kernelFiles == ActivateKernels(taken.kernelFiles, stamp);
    }
    assert act.state == taken;
  }

  /** Clearing with an up-to-date cache and no failed delete empties the
      registry and leaves no kernel file tagged by a former snapshot. */
  lemma ClearEmptiesRegistry(st: State, cache: seq<string>)
    requires forall i :: 0 <= i < |cache| ==> ShellWord(cache[i])
    requires SetOf(cache) == st.registry
    ensures ClearSnapshots(st, cache, {}).registry == {}
    ensures forall f, s :: f in ClearSnapshots(st, cache, {}).kernelFiles && s in st.registry ==> !EndsWith(f, s)
  {
    var r := ClearSnapshots(st, cache, {});
    forall s | s in st.registry ensures s in cache {
      assert s in SetOf(cache);
    }
    forall f, s | f in r.kernelFiles && s in st.registry ensures !EndsWith(f, s) {
      assert s in SetOf(cache);
      assert !EndsWithSome(f, cache);
    }
  }
}

=== FILE: text.dfy ===
/** The Python string operations the snapshot code relies on, as pure functions
    over `seq<char>`: substring search, suffix test, replace-all, `split(sep)`
    and the whitespace `split()`. */
module Text {

  /** `t` occurs in `s` starting at index `i`. */
  predicate OccursAt(s: string, t: string, i: int) {
    0 <= i && i + |t| <= |s| && s[i..i + |t|] == t
  }

  /** Python's `t in s`, equivalently `s.find(t) > -1`. */
  predicate Contains(s: string, t: string) {
    exists i :: 0 <= i <= |s| - |t| && OccursAt(s, t, i)
  }

  /** Python's `s.endswith(t)`. */
  predicate EndsWith(s: string, t: string) {
    |t| <= |s| && s[|s| - |t|..] == t
  }

  /** Python's `s.startswith(p)`. */
  predicate StartsWith(s: string, p: string) {
    |p| <= |s| && s[..|p|] == p
  }

  lemma EndsWithContains(s: string, t: string)
    requires EndsWith(s, t)
    ensures Contains(s, t)
  {
    assert OccursAt(s, t, |s| - |t|);
  }

  lemma ContainsInSuffix(s: string, t: string)
    requires |s| > 0 && Contains(s[1..], t)
    ensures Contains(s, t)
  {
    var i :| 0 <= i <= |s[1..]| - |t| && OccursAt(s[1..], t, i);
    assert s[i + 1..i + 1 + |t|] == s[1..][i..i + |t|];
    assert OccursAt(s, t, i + 1);
  }

  /** `t` occurs at `i` and nowhere before it: where `s.find(t)` points. */
  predicate IsFirstOccurrence(s: string, t: string, i: int) {
    OccursAt(s, t, i) && forall j :: 0 <= j < i ==> !OccursAt(s, t, j)
  }

  /** Python's `s.replace(pat, rep)`: scans left to right and replaces every
      non-overlapping occurrence of `pat`. The empty pattern, which Python
      treats specially, never reaches this model. */
  function Replace(s: string, pat: string, rep: string): string
    requires |pat| > 0
    decreases |s|
  {
    if |s| < |pat| then s
    else if s[..|pat|] == pat then rep + Replace(s[|pat|..], pat, rep)
    else [s[0]] + Replace(s[1..], pat, rep)
  }

  /** Replacing a pattern that does not occur changes nothing. */
  lemma {:induction false} ReplaceAbsent(s: string, pat: string, rep: string)
    requires |pat| > 0
    requires !Contains(s, pat)
    ensures Replace(s, pat, rep) == s
    decreases |s|
  {
    if |s| >= |pat| {
      assert !OccursAt(s, pat, 0);
      if Contains(s[1..], pat) {
        ContainsInSuffix(s, pat);
      }
      ReplaceAbsent(s[1..], pat, rep);
      assert [s[0]] + s[1..] == s;
    }
  }

  /** A first occurrence past the start is, one character on, the first
      occurrence in the rest of the string. */
  lemma FirstOccurrenceShift(s: string, pat: string, i: int)
    requires |pat| > 0 && i > 0
    requires IsFirstOccurrence(s, pat, i)
    ensures s[..|pat|] != pat
    ensures IsFirstOccurrence(s[1..], pat, i - 1)
  {
    assert !OccursAt(s, pat, 0);
    forall j | 0 <= j < i - 1 ensures !OccursAt(s[1..], pat, j) {
      assert !OccursAt(s, pat, j + 1);
      assert s[1..][j..j + |pat|] == s[j + 1..j + 1 + |pat|];
    }
    assert s[1..][i - 1..i - 1 + |pat|] == s[i..i + |pat|];
  }

  lemma ConcatAssoc(a: string, b: string, c: string, d: string)
    ensures a + (b + c + d) == a + b + c + d
  {
  }

  /** The scan keeps the text before the first occurrence, replaces that
      occurrence, and resumes right after it. */
  lemma {:induction false} ReplaceFirst(s: string, pat: string, rep: string, i: int)
    requires |pat| > 0
    requires IsFirstOccurrence(s, pat, i)
    ensures Replace(s, pat, rep) == s[..i] + rep + Replace(s[i + |pat|..], pat, rep)
    decreases |s|
  {
    if i == 0 {
      assert s[..|pat|] == pat;
      assert Replace(s, pat, rep) == rep + Replace(s[|pat|..], pat, rep);
      assert s[..0] + rep == rep;
    } else {
      var t := s[1..];
      FirstOccurrenceShift(s, pat, i);
      ReplaceFirst(t, pat, rep, i - 1);
      var pre, rest := t[..i - 1], Replace(t[i - 1 + |pat|..], pat, rep);
      assert Replace(t, pat, rep) == pre + rep + rest;
      assert t[i - 1 + |pat|..] == s[i + |pat|..];
      assert Replace(s, pat, rep) == [s[0]] + Replace(t, pat, rep);
      ConcatAssoc([s[0]], pre, rep, rest);
      assert [s[0]] + pre == s[..i];
    }
  }

  /** Deleting a pattern never lengthens a string, and shortens it exactly
      when the pattern occurs. */
  lemma {:induction false} ReplaceDeleteLength(s: string, pat: string)
    requires |pat| > 0
    ensures |Replace(s, pat, "")| <= |s|
    ensures |Replace(s, pat, "")| == |s| <==> !Contains(s, pat)
    decreases |s|
  {
    if |s| < |pat| {
    } else if s[..|pat|] == pat {
      ReplaceDeleteLength(s[|pat|..], pat);
      assert OccursAt(s, pat, 0);
    } else {
      ReplaceDeleteLength(s[1..], pat);
      if Contains(s, pat) {
        var i :| 0 <= i <= |s| - |pat| && OccursAt(s, pat, i);
        assert i != 0;
        assert s[1..][i - 1..i - 1 + |pat|] == s[i..i + |pat|];
        assert OccursAt(s[1..], pat, i - 1);
      }
      if Contains(s[1..], pat) {
        ContainsInSuffix(s, pat);
      }
    }
  }

  /** Deleting every occurrence of `pat` leaves `s` unchanged exactly when
      `pat` does not occur in it. */
  lemma ReplaceDeleteFixpoint(s: string, pat: string)
    requires |pat| > 0
    ensures Replace(s, pat, "") == s <==> !Contains(s, pat)
  {
    ReplaceDeleteLength(s, pat);
    if !Contains(s, pat) {
      ReplaceAbsent(s, pat, "");
    }
  }

  /** If the only occurrence of `pat` in `k + pat` is the trailing one, deleting
      every occurrence gives back `k`. */
  lemma {:induction false} ReplaceStripsTrailing(k: string, pat: string)
    requires |pat| > 0
    requires forall i :: 0 <= i < |k| ==> !OccursAt(k + pat, pat, i)
    ensures Replace(k + pat, pat, "") == k
    decreases |k|
  {
    var s := k + pat;
    if |k| == 0 {
      assert s == pat;
      assert s[..|pat|] == pat;
      assert s[|pat|..] == [];
    } else {
      assert !OccursAt(s, pat, 0);
      assert s[..|pat|] != pat;
      assert s[1..] == k[1..] + pat;
      forall i | 0 <= i < |k[1..]|
        ensures !OccursAt(k[1..] + pat, pat, i)
      {
        assert (k[1..] + pat)[i..i + |pat|] == s[i + 1..i + 1 + |pat|];
        assert !OccursAt(s, pat, i + 1);
      }
      ReplaceStripsTrailing(k[1..], pat);
      assert [k[0]] + k[1..] == k;
    }
  }

  /** Deleting `"." + n` from `k + "." + n` restores `k`, provided `n` has no
      dot and `k` does not already contain `n`. */
  lemma StripDotSuffix(k: string, n: string)
    requires '.' !in n
    requires !Contains(k, n)
    ensures Replace(k + "." + n, "." + n, "") == k
  {
    var pat := "." + n;
    var s := k + pat;
    assert k + "." + n == s;
    forall i | 0 <= i < |k|
      ensures !OccursAt(s, pat, i)
    {
      if i + 1 + |n| <= |k| {
        assert !OccursAt(k, n, i + 1);
        assert k[i + 1..i + 1 + |n|] == s[i + 1..i + 1 + |n|];
        assert s[i..i + |pat|][1..] == s[i + 1..i + 1 + |n|];
        assert pat[1..] == n;
      } else {
        var j := |k| - i - 1;
        assert 0 <= j < |n|;
        assert s[|k|] == '.';
        assert n[j] != '.';
        assert s[i..i + |pat|][j + 1] == s[|k|];
        assert pat[j + 1] == n[j];
      }
    }
    ReplaceStripsTrailing(k, pat);
  }

  // ---------------------------------------------------------------------
  // split(sep) and its inverse

  /** Python's `sep.join(parts)` for a one-character separator. */
  function Join(parts: seq<string>, sep: char): string {
    if |parts| == 0 then []
    else if |parts| == 1 then parts[0]
    else parts[0] + [sep] + Join(parts[1..], sep)
  }

  /** Python's `s.split(sep)` for a one-character separator: always at least
      one piece, empty pieces kept, no piece contains the separator, and
      joining the pieces back gives `s`. */
  function SplitOn(s: string, sep: char): (parts: seq<string>)
    ensures |parts| >= 1
    ensures forall i :: 0 <= i < |parts| ==> sep !in parts[i]
    ensures Join(parts, sep) == s
    decreases |s|
  {
    if |s| == 0 then [""]
    else
      var rest := SplitOn(s[1..], sep);
      if s[0] == sep then
        assert ([""] + rest)[1..] == rest;
        [""] + rest
      else
        var parts := [[s[0]] + rest[0]] + rest[1..];
        assert |rest| >= 2 ==> Join(rest, sep) == rest[0] + [sep] + Join(rest[1..], sep);
        assert |parts| >= 2 ==> parts[1..] == rest[1..];
        parts
  }

  lemma {:induction false} SplitOnPrefixFree(w: string, t: string, sep: char)
    requires sep !in w
    ensures SplitOn(w + t, sep) == [w + SplitOn(t, sep)[0]] + SplitOn(t, sep)[1..]
    decreases |w|
  {
    if |w| > 0 {
      assert (w + t)[1..] == w[1..] + t;
      SplitOnPrefixFree(w[1..], t, sep);
      assert [w[0]] + (w[1..] + SplitOn(t, sep)[0]) == w + SplitOn(t, sep)[0];
    } else {
      var parts := SplitOn(t, sep);
      assert w + t == t;
      assert w + parts[0] == parts[0];
      assert parts == [parts[0]] + parts[1..];
    }
  }

  /** Splitting a join gives back the parts, when no part holds the separator. */
  lemma {:induction false} SplitJoin(parts: seq<string>, sep: char)
    requires |parts| >= 1
    requires forall i :: 0 <= i < |parts| ==> sep !in parts[i]
    ensures SplitOn(Join(parts, sep), sep) == parts
    decreases |parts|
  {
    if |parts| == 1 {
      SplitOnPrefixFree(parts[0], "", sep);
      assert parts[0] + "" == parts[0];
    } else {
      var t := Join(parts[1..], sep);
      SplitJoin(parts[1..], sep);
      assert parts[0] + [sep] + t == parts[0] + ([sep] + t);
      SplitOnPrefixFree(parts[0], [sep] + t, sep);
      assert ([sep] + t)[1..] == t;
      assert SplitOn([sep] + t, sep) == [""] + parts[1..];
      assert parts[0] + "" == parts[0];
    }
  }

  /** The first piece of a split is a prefix of the string, cut just before
      the first separator when there is one. */
  lemma {:induction false} SplitHead(s: string, sep: char)
    ensures StartsWith(s, SplitOn(s, sep)[0])
    ensures |SplitOn(s, sep)[0]| == |s| || s[|SplitOn(s, sep)[0]|] == sep
    decreases |s|
  {
    if |s| > 0 {
      SplitHead(s[1..], sep);
    }
  }

  // ---------------------------------------------------------------------
  // Whitespace split()

  /** The characters Python 2's `str.split()` treats as whitespace. */
  predicate IsSpace(c: char) {
    c == ' ' || c == '\t' || c == '\n' || c == '\r' || c == '\U{000B}' || c == '\U{000C}'
  }

  predicate NoSpace(w: string) {
    forall i :: 0 <= i < |w| ==> !IsSpace(w[i])
  }

  /** Length of the run of non-space characters at the start of `s`. */
  function WordEnd(s: string): (n: nat)
    ensures n <= |s|
    ensures NoSpace(s[..n])
    ensures n == |s| || IsSpace(s[n])
  {
    if |s| == 0 || IsSpace(s[0]) then 0
    else
      var m := WordEnd(s[1..]);
      assert s[..m + 1] == [s[0]] + s[1..][..m];
      m + 1
  }

  /** Python's `s.split()`: maximal runs of non-space characters, in order.
      Every word is non-empty and free of whitespace. */
  function Words(s: string): (ws: seq<string>)
    ensures forall i :: 0 <= i < |ws| ==> |ws[i]| > 0 && NoSpace(ws[i])
    decreases |s|
  {
    if |s| == 0 then []
    else if IsSpace(s[0]) then Words(s[1..])
    else
      var n := WordEnd(s);
      [s[..n]] + Words(s[n..])
  }

  /** `split()` finds no word exactly when the string is all whitespace. */
  lemma {:induction false} WordsEmpty(s: string)
    ensures Words(s) == [] <==> forall i :: 0 <= i < |s| ==> IsSpace(s[i])
    decreases |s|
  {
    if |s| > 0 && IsSpace(s[0]) {
      WordsEmpty(s[1..]);
      if forall i :: 0 <= i < |s[1..]| ==> IsSpace(s[1..][i]) {
        forall i | 0 <= i < |s|
          ensures IsSpace(s[i])
        {
          if i > 0 {
            assert s[i] == s[1..][i - 1];
          }
        }
      }
    }
  }

  lemma {:induction false} WordEndOfWord(w: string, t: string)
    requires NoSpace(w)
    requires |t| == 0 || IsSpace(t[0])
    ensures WordEnd(w + t) == |w|
    decreases |w|
  {
    if |w| > 0 {
      assert (w + t)[1..] == w[1..] + t;
      WordEndOfWord(w[1..], t);
    } else {
      assert w + t == t;
    }
  }

  /** A word followed by the end of the string or by whitespace is the first
      word `split()` returns. */
  lemma WordsCons(w: string, t: string)
    requires |w| > 0 && NoSpace(w)
    requires |t| == 0 || IsSpace(t[0])
    ensures Words(w + t) == [w] + Words(t)
  {
    WordEndOfWord(w, t);
    assert (w + t)[..|w|] == w;
    assert (w + t)[|w|..] == t;
  }

  /** `split()` inverts joining non-empty, whitespace-free words with single
      spaces. */
  lemma {:induction false} WordsOfJoin(ws: seq<string>)
    requires forall i :: 0 <= i < |ws| ==> |ws[i]| > 0 && NoSpace(ws[i])
    ensures Words(Join(ws, ' ')) == ws
    decreases |ws|
  {
    if |ws| == 1 {
      WordsCons(ws[0], "");
      assert ws[0] + "" == ws[0];
    } else if |ws| > 1 {
      var t := Join(ws[1..], ' ');
      WordsOfJoin(ws[1..]);
      assert ws[0] + [' '] + t == ws[0] + ([' '] + t);
      WordsCons(ws[0], [' '] + t);
      assert ([' '] + t)[1..] == t;
      assert Words([' '] + t) == Words(t);
    }
  }
}

=== FILE: timestamps.dfy ===
/** The default snapshot name: the clock formatted with `%Y%m%d%H%M`. The
    clock itself is not modelled; a reading of it is a `DateTime` value. */
module Timestamps {
  import opened Outcomes

  /** A reading of `datetime.now()`, down to the second. */
  datatype DateTime = DateTime(year: int, month: int, day: int, hour: int, minute: int, second: int)

  /** A reading `strftime` formats: fields in their ranges, and a year from
      1900 on, since Python 2's `strftime` refuses earlier years. The day is
      not bounded by the month; formatting does not depend on it. */
  predicate ValidClock(t: DateTime) {
    && 1900 <= t.year <= 9999
    && 1 <= t.month <= 12
    && 1 <= t.day <= 31
    && 0 <= t.hour <= 23
    && 0 <= t.minute <= 59
    && 0 <= t.second <= 59
  }

  /** The reading with its seconds dropped: all that `%Y%m%d%H%M` keeps. */
  function ToMinute(t: DateTime): DateTime {
    t.(second := 0)
  }

  predicate IsDigit(c: char) {
    '0' <= c <= '9'
  }

  predicate AllDigits(s: string) {
    forall i :: 0 <= i < |s| ==> IsDigit(s[i])
  }

  function Pow10(n: nat): (p: nat)
    ensures p >= 1
  {
    if n == 0 then 1 else 10 * Pow10(n - 1)
  }

  /** `n` written in decimal with exactly `width` digits, zero-padded on the
      left, as `strftime` pads each field. */
  function Digits(n: nat, width: nat): (s: string)
    requires n < Pow10(width)
    ensures |s| == width
    ensures AllDigits(s)
  {
    if width == 0 then ""
    else Digits(n / 10, width - 1) + [('0' as int + n % 10) as char]
  }

  /** The number a string of decimal digits denotes. */
  function DigitsValue(s: string): nat
    requires AllDigits(s)
  {
    if |s| == 0 then 0
    else 10 * DigitsValue(s[..|s| - 1]) + (s[|s| - 1] as int - '0' as int)
  }

  /** Reading back a padded decimal gives the number that was written. */
  lemma {:induction false} DigitsRoundTrip(n: nat, width: nat)
    requires n < Pow10(width)
    ensures DigitsValue(Digits(n, width)) == n
    decreases width
  {
    if width > 0 {
      var s := Digits(n, width);
      DigitsRoundTrip(n / 10, width - 1);
      assert s[..|s| - 1] == Digits(n / 10, width - 1);
    }
  }

  /** `datetime.strftime(now, '%Y%m%d%H%M')`. */
  function Format(t: DateTime): (s: string)
    requires ValidClock(t)
    ensures |s| == 12
    ensures AllDigits(s)
    ensures '.' !in s
  {
    Digits(t.year, 4) + Digits(t.month, 2) + Digits(t.day, 2) + Digits(t.hour, 2) + Digits(t.minute, 2)
  }

  /** Reads a `%Y%m%d%H%M` string back into a reading with zero seconds. */
  function Parse(s: string): Option<DateTime> {
    if |s| == 12 && AllDigits(s) then
      Some(DateTime(DigitsValue(s[0..4]), DigitsValue(s[4..6]), DigitsValue(s[6..8]),
                    DigitsValue(s[8..10]), DigitsValue(s[10..12]), 0))
    else None
  }

  /** A formatted reading parses back to the same minute. */
  lemma ParseFormat(t: DateTime)
    requires ValidClock(t)
    ensures Parse(Format(t)) == Some(ToMinute(t))
  {
    var y, mo, d, h, mi := Digits(t.year, 4), Digits(t.month, 2), Digits(t.day, 2),
                           Digits(t.hour, 2), Digits(t.minute, 2);
    var s := Format(t);
    assert s == y + mo + d + h + mi;
    assert |y + mo| == 6 && |y + mo + d| == 8 && |y + mo + d + h| == 10;
    assert s[0..4] == y;
    assert s[4..6] == mo;
    assert s[6..8] == d;
    assert s[8..10] == h;
    assert s[10..12] == mi;
    DigitsRoundTrip(t.year, 4);
    DigitsRoundTrip(t.month, 2);
    DigitsRoundTrip(t.day, 2);
    DigitsRoundTrip(t.hour, 2);
    DigitsRoundTrip(t.minute, 2);
  }

  /** Two readings give the same name exactly when they fall in the same
      minute: calls within one minute collide, calls in different minutes
      never do. */
  lemma SameNameIffSameMinute(a: DateTime, b: DateTime)
    requires ValidClock(a) && ValidClock(b)
    ensures Format(a) == Format(b) <==> ToMinute(a) == ToMinute(b)
  {
    ParseFormat(a);
    ParseFormat(b);
  }
}

=== FILE: tool_output.dfy ===
/** Parsers for the text printed by `mount` and `btrfs subvolume list`: the
    subvolume id lookup, the root-device extraction of the default activation
    branch, and the check that the root filesystem is btrfs. */
module ToolOutput {
  import opened Outcomes
  import opened Text

  /** The marker a mount-table line carries when its mount point is `/`. */
  const RootMarker: string := " / "

  /** Python's `output.split('\n')`. */
  function Lines(output: string): seq<string> {
    SplitOn(output, '\n')
  }

  /** Line `i` is the first line containing `pat`. */
  predicate IsFirstMatch(lines: seq<string>, pat: string, i: int) {
    && 0 <= i < |lines|
    && Contains(lines[i], pat)
    && forall j :: 0 <= j < i ==> !Contains(lines[j], pat)
  }

  /** Line `i` is the last line containing `pat`. */
  predicate IsLastMatch(lines: seq<string>, pat: string, i: int) {
    && 0 <= i < |lines|
    && Contains(lines[i], pat)
    && forall j :: i < j < |lines| ==> !Contains(lines[j], pat)
  }

  predicate NoneMatch(lines: seq<string>, pat: string) {
    forall i :: 0 <= i < |lines| ==> !Contains(lines[i], pat)
  }

  /** A `for` loop over the lines that stops at the first line containing `pat`. */
  function FirstMatch(lines: seq<string>, pat: string): (r: Option<nat>)
    ensures r.None? <==> NoneMatch(lines, pat)
    ensures r.Some? ==> IsFirstMatch(lines, pat, r.value)
  {
    if |lines| == 0 then None
    else if Contains(lines[0], pat) then Some(0)
    else
      match FirstMatch(lines[1..], pat)
      case None =>
        assert forall i :: 1 <= i < |lines| ==> lines[i] == lines[1..][i - 1];
        None
      case Some(i) =>
        assert forall j :: 1 <= j < i + 1 ==> lines[j] == lines[1..][j - 1];
        Some(i + 1)
  }

  /** A `for` loop over all the lines that keeps the last line containing `pat`. */
  function LastMatch(lines: seq<string>, pat: string): (r: Option<nat>)
    ensures r.None? <==> NoneMatch(lines, pat)
    ensures r.Some? ==> IsLastMatch(lines, pat, r.value)
  {
    if |lines| == 0 then None
    else if Contains(lines[|lines| - 1], pat) then Some(|lines| - 1)
    else
      var r := LastMatch(lines[..|lines| - 1], pat);
      assert forall i :: 0 <= i < |lines| - 1 ==> lines[i] == lines[..|lines| - 1][i];
      r
  }

  lemma FirstMatchUnique(lines: seq<string>, pat: string, i: int, j: int)
    requires IsFirstMatch(lines, pat, i) && IsFirstMatch(lines, pat, j)
    ensures i == j
  {
  }

  lemma LastMatchUnique(lines: seq<string>, pat: string, i: int, j: int)
    requires IsLastMatch(lines, pat, i) && IsLastMatch(lines, pat, j)
    ensures i == j
  {
  }

  // ---------------------------------------------------------------------
  // btrfs subvolume list

  /** `v.split()[1]`: the id field of a subvolume-list line, or the
      IndexError a line with fewer than two fields raises. */
  function IdField(line: string): (r: Result<Option<string>>)
    ensures r == Err(FieldMissing) <==> |Words(line)| < 2
    ensures r.Ok? ==> r.value.Some? && |r.value.value| > 0 && NoSpace(r.value.value)
  {
    var ws := Words(line);
    if |ws| >= 2 then Ok(Some(ws[1])) else Err(FieldMissing)
  }

  /** A listing line laid out as space-separated columns yields its second
      column, and a line of a single column raises IndexError. */
  lemma IdFieldOfColumns(cols: seq<string>)
    requires forall i :: 0 <= i < |cols| ==> |cols[i]| > 0 && NoSpace(cols[i])
    ensures |cols| >= 2 ==> IdField(Join(cols, ' ')) == Ok(Some(cols[1]))
    ensures |cols| < 2 ==> IdField(Join(cols, ' ')) == Err(FieldMissing)
  {
    WordsOfJoin(cols);
  }

  /** `_find_btrfs_vol_id`: the second field of the first listing line that
      contains the snapshot name; `None` when no line does. */
  function FindVolId(listing: string, name: string): (r: Result<Option<string>>)
    ensures r == Ok(None) <==> NoneMatch(Lines(listing), name)
    ensures forall i :: IsFirstMatch(Lines(listing), name, i) ==> r == IdField(Lines(listing)[i])
  {
    var lines := Lines(listing);
    match FirstMatch(lines, name)
    case None => Ok(None)
    case Some(i) =>
      forall j | IsFirstMatch(lines, name, j) ensures j == i {
        FirstMatchUnique(lines, name, i, j);
      }
      IdField(lines[i])
  }

  /** Lines after the first matching line never influence the lookup: the
      earlier of two matching lines wins. */
  lemma VolIdIgnoresLaterLines(before: seq<string>, after: seq<string>, name: string)
    requires forall i :: 0 <= i < |before| ==> '\n' !in before[i]
    requires forall i :: 0 <= i < |after| ==> '\n' !in after[i]
    requires !NoneMatch(before, name)
    ensures FindVolId(Join(before + after, '\n'), name) == FindVolId(Join(before, '\n'), name)
  {
    var all := before + after;
    SplitJoin(before, '\n');
    SplitJoin(all, '\n');
    var i := FirstMatch(before, name).value;
    assert IsFirstMatch(all, name, i);
  }

  // ---------------------------------------------------------------------
  // The mount table

  /** `root_dev.split('[')[0]` when the device carries a `[label]` part:
      a prefix of the device holding no `[`, cut right before the first `[`
      when there is one. */
  function StripLabel(dev: string): (r: string)
    ensures '[' !in r
    ensures StartsWith(dev, r)
    ensures |r| == |dev| || dev[|r|] == '['
  {
    SplitHead(dev, '[');
    if Contains(dev, "[") then SplitOn(dev, '[')[0]
    else
      assert '[' !in dev by {
        forall i | 0 <= i < |dev| ensures dev[i] != '[' {
          assert !OccursAt(dev, "[", i);
        }
      }
      dev
  }

  /** A device without a label is left as it is, so stripping twice strips
      nothing more. */
  lemma StripLabelIdempotent(dev: string)
    ensures '[' !in dev ==> StripLabel(dev) == dev
    ensures StripLabel(StripLabel(dev)) == StripLabel(dev)
  {
  }

  /** A line holding " / " has at least one field. */
  lemma RootLineHasFields(line: string)
    requires Contains(line, RootMarker)
    ensures |Words(line)| > 0
  {
    var i :| 0 <= i <= |line| - |RootMarker| && OccursAt(line, RootMarker, i);
    assert line[i + 1] == '/';
    WordsEmpty(line);
  }

  /** The default branch of `activate_snapshot`: the first field of the
      first mount-table line holding " / ", cut before any `[label]`. */
  function RootDevice(mounts: string): (r: Option<string>)
    ensures r.None? <==> NoneMatch(Lines(mounts), RootMarker)
    ensures r.Some? ==> '[' !in r.value
    ensures forall i :: IsFirstMatch(Lines(mounts), RootMarker, i) ==>
      && r.Some?
      && |Words(Lines(mounts)[i])| > 0
      && StartsWith(Words(Lines(mounts)[i])[0], r.value)
      && (|r.value| == |Words(Lines(mounts)[i])[0]| || Words(Lines(mounts)[i])[0][|r.value|] == '[')
  {
    var lines := Lines(mounts);
    match FirstMatch(lines, RootMarker)
    case None => None
    case Some(i) =>
      RootLineHasFields(lines[i]);
      var dev := Words(lines[i])[0];
      forall j | IsFirstMatch(lines, RootMarker, j) ensures j == i {
        FirstMatchUnique(lines, RootMarker, i, j);
      }
      Some(StripLabel(dev))
  }

  /** `_check_root_filesystem`: whether the LAST mount-table line holding
      " / " mentions btrfs; with no such line `root_fs` is unbound. */
  function RootIsBtrfs(mounts: string): (r: Result<bool>)
    ensures r.Err? <==> NoneMatch(Lines(mounts), RootMarker)
    ensures r.Err? ==> r.error == UnboundRootFs
    ensures forall i :: IsLastMatch(Lines(mounts), RootMarker, i) ==>
      r == Ok(Contains(Lines(mounts)[i], "btrfs"))
  {
    var lines := Lines(mounts);
    match LastMatch(lines, RootMarker)
    case None => Err(UnboundRootFs)
    case Some(i) =>
      forall j | IsLastMatch(lines, RootMarker, j) ensures j == i {
        LastMatchUnique(lines, RootMarker, i, j);
      }
      Ok(Contains(lines[i], "btrfs"))
  }

  /** Lines before the last root line never influence the btrfs check, while
      they do decide the root device: the two readers of the same table look
      at opposite ends. */
  lemma BtrfsCheckIgnoresEarlierLines(before: seq<string>, after: seq<string>)
    requires forall i :: 0 <= i < |before| ==> '\n' !in before[i]
    requires forall i :: 0 <= i < |after| ==> '\n' !in after[i]
    requires !NoneMatch(after, RootMarker)
    ensures RootIsBtrfs(Join(before + after, '\n')) == RootIsBtrfs(Join(after, '\n'))
  {
    var all := before + after;
    SplitJoin(after, '\n');
    SplitJoin(all, '\n');
    var i := LastMatch(after, RootMarker).value;
    assert IsLastMatch(all, RootMarker, |before| + i);
  }

  lemma RootDeviceIgnoresLaterLines(before: seq<string>, after: seq<string>)
    requires forall i :: 0 <= i < |before| ==> '\n' !in before[i]
    requires forall i :: 0 <= i < |after| ==> '\n' !in after[i]
    requires !NoneMatch(before, RootMarker)
    ensures RootDevice(Join(before + after, '\n')) == RootDevice(Join(before, '\n'))
  {
    var all := before + after;
    SplitJoin(before, '\n');
    SplitJoin(all, '\n');
    var i := FirstMatch(before, RootMarker).value;
    assert IsFirstMatch(all, RootMarker, i);
  }
}
